=== FILE: README.md ===
# Accessibility widget, modelled in Dafny

`accessibility-widget.js` injects a floating accessibility panel into a page.
Its buttons step the root font size, flip seven body classes (high contrast,
negative contrast, grayscale, light background, highlighted links, reading
guide, big cursor), pick a font family, and reset everything. Every choice is
mirrored into the origin's key-value store (`localStorage`) under an
`accessibility-*` key, and on the next page load the settings loader rebuilds
the look from the store.

This project models that behaviour as a state machine over plain values and
proves what the widget promises about it.

## Layout

- `decimal.dfy`, module `Decimal`: the decimal text of integers. The store
  only holds strings. Writing a size stores its decimal rendering, and reading
  it back goes through `parseInt`. The module proves the round trip.
- `widget.dfy`, module `Widget`: the state record `WidgetState` and every
  operation of the widget object as a pure transition function.
  - The state holds the body class set, the store as `map<string, string>`,
    the text last assigned to the root element's inline font-size (`"130%"`,
    or `""` when unset),
    the body's inline font-family, the number of reading-guide overlay nodes,
    whether the panel's Reading Guide button is still in the page, and the
    panel's `active` flag.
  - The seven `toggle*` methods are one function, `ToggleFeature`, over the
    `Feature` datatype. Each feature's body class doubles as its storage key.
  - The reading-guide removal takes a `GuideLookup`: `FirstWithId` is the
    lookup as the code has it, `OverlayOnly` the one it evidently intends
    (see "Findings"). Every operation that removes the guide takes it as a
    parameter, so each property is stated for the lookup it holds under.
- `events.dfy`, module `Events`: what the event wiring does, as `Dispatch`
  over click and key events. `Run` applies a sequence of them.
- `rehydration.dfy`, module `Rehydration`: the invariant `Persisted` ("the
  look is the one the store implies"), and the theorem
  `SessionSurvivesReload`. Under the intended lookup it says that after any
  sequence of user actions, a reload shows the same look again. Under the
  lookup as written this fails: `GuideTwiceBreaksReload` gives a session
  after which the reload looks different.

Behaviours of the code that the model states explicitly:

- Toggling a feature twice restores its class, but not its store entry. An
  entry that was absent ends up as an explicit `"true"` or `"false"` matching
  the class (`ToggleTwice`).
- `parseInt` does not fall back to 100 for a corrupted font-size entry. It
  reads a leading number out of it (`"130px"` reads as 130, `"0x10"` as 16),
  and gives `NaN` only when there is none. The model handles only entries
  that are absent, empty or plain decimals (see "Left out").
- Loading the settings twice adds a second reading-guide overlay
  (`LoadSettingsTwiceDuplicatesGuide`). The same happens when the guide is
  toggled on while an overlay already exists. Only the invariant
  `GuideConsistent` rules both out.

## Model

| member | source | states |
|---|---|---|
| Decimal.NatToString | accessibility-widget.js:205 | the text stored for a non-negative size is a non-empty run of digits with no leading zero |
| Decimal.IntToString | accessibility-widget.js:205 | the value written for a size is a well-formed decimal, signed exactly when the size is negative |
| Decimal.ParseDecimal | accessibility-widget.js:203 | `parseInt` of a signed decimal is negative only when the text starts with a minus sign, and never positive when it does |
| Decimal.ParseNatToString | accessibility-widget.js:203-205 | reading the digits written for a natural number gives that number back |
| Decimal.IntToStringRoundTrip | accessibility-widget.js:203-205 | `parseInt` of the text `setItem` stored for a size returns that size |
| Decimal.IntToStringInjective | accessibility-widget.js:205 | two different sizes are never stored as the same text |
| Widget.FeatureNames | accessibility-widget.js:287-295 | the seven class names are pairwise distinct, all among the classes reset removes, and clash with neither font key |
| Widget.FeatureNamed | accessibility-widget.js:287-295 | every class that reset removes belongs to one of the seven features |
| Widget.TogglePanel | accessibility-widget.js:192-195 | the panel's `active` flag is negated and nothing else, the store included, changes |
| Widget.HidePanel | accessibility-widget.js:197-200 | the panel ends inactive whatever it was before, and nothing else changes |
| Widget.HidePanelIdempotent | accessibility-widget.js:192-200 | hiding twice equals hiding once; toggling twice is the identity |
| Widget.Clamp | accessibility-widget.js:204 | the new size lies in [50, 200], equals the request when that is in range and the nearer bound otherwise |
| Widget.ReadFontSize | accessibility-widget.js:203 | an absent or empty entry reads as 100, the fallback to `'100'` |
| Widget.ChangeFontSize | accessibility-widget.js:202-207 | the stored text is the canonical decimal `String` of clamp(current + 10·delta), so it reads back as that size, which lies in [50, 200]; the root font size is the stored text plus `%`; no other key, class, family, overlay, button or panel state changes |
| Widget.ResetFontSize | accessibility-widget.js:209-212 | the font-size key is gone (so it reads as 100), the root size is `100%`, and nothing else changes |
| Widget.CreateReadingGuide | accessibility-widget.js:264-278 | one more overlay node exists; nothing else changes |
| Widget.RemoveOverlay | accessibility-widget.js:280-283 | the intended removal: one overlay node fewer when any exists, none removed otherwise; the button and everything else are kept |
| Widget.RemoveFirstById | accessibility-widget.js:280-283 | the removal as written: while the Reading Guide button (which shares the overlay's id, lines 79 and 266, and precedes it) is in the page, the button is removed and every overlay stays; once it is gone, the first overlay is removed |
| Widget.RemoveReadingGuide | accessibility-widget.js:280-283 | whenever the lookup cannot reach the button the removal is the overlay removal; otherwise the button goes and the overlays stay; nothing else changes |
| Widget.ToggleFeature | accessibility-widget.js:214-252 | exactly this feature's class flips; its entry becomes `"true"` iff the class is now on and is always `"true"` or `"false"`; no other class or key changes; only the reading guide touches the overlay or the button: on adds one overlay, off performs the removal; the one-overlay-iff-class invariant is kept whenever the removal takes the overlay |
| Widget.ToggleTwice | accessibility-widget.js:214-252 | toggling twice restores the class set; the entry ends at the explicit value matching the original class rather than its old value; for other features, and for the guide when the overlay was consistent and the removal takes the overlay, the whole state is restored except that entry |
| Widget.ToggleTwiceIdentity | accessibility-widget.js:214-252 | when the entry already mirrors the class, toggling twice changes nothing, under the same conditions for the reading guide |
| Widget.GuideOffRemovesButton | accessibility-widget.js:239-248 | as written, turning the guide on and off while its button is in the page leaves the class off and `"false"` stored, but one overlay on the page and the button gone |
| Widget.FontStyleFor | accessibility-widget.js:255-260 | each of the keys `dyslexic`, `sans`, `serif` resolves to its font stack, and no other key resolves to a stack |
| Widget.ChangeFontFamily | accessibility-widget.js:254-262 | the key itself, not the stack, is stored; the body family is the stack the key names; no other key or state changes |
| Widget.ChangeFontFamilyReplaces | accessibility-widget.js:254-262 | a second choice fully replaces the first, in the store and on the body |
| Widget.ResetAll | accessibility-widget.js:285-314 | none of the seven classes and none of the nine keys remain; other classes and keys are kept; root size `100%`; no inline family; the overlay and button change as the removal dictates, so no overlay remains when there was at most one and the removal takes the overlay; panel untouched |
| Widget.ResetAllIdempotent | accessibility-widget.js:285-314 | resetting twice equals resetting once when at most one overlay existed and the first reset did not spend its removal on the button while an overlay was shown |
| Widget.ResetWithGuideLeavesOverlay | accessibility-widget.js:285-314 | as written, resetting with the guide on and its button in the page removes the button and leaves the overlay although its class is gone; a second reset changes the page again |
| Widget.ResetRemovesButton | accessibility-widget.js:285-314 | as written, a reset on any page with the Reading Guide button removes that button, whether or not the guide was on; under the intended lookup the button stays |
| Widget.AddStoredClasses | accessibility-widget.js:339-343 | a class is present afterwards iff it was present before or it is listed and its entry is exactly `"true"` |
| Widget.LoadFontSize | accessibility-widget.js:317-321 | a non-empty stored size is applied verbatim, without clamping; otherwise the root size is untouched |
| Widget.LoadFontFamily | accessibility-widget.js:323-327 | a non-empty stored family key is resolved again as the font-family operation does; otherwise the family is untouched |
| Widget.LoadPlainFeatures | accessibility-widget.js:329-343 | each of the six features other than the reading guide gets its class iff its entry is `"true"`; only those classes are added |
| Widget.LoadReadingGuide | accessibility-widget.js:345-349 | a stored `"true"` reading guide adds its class and exactly one new overlay; otherwise nothing changes |
| Widget.LoadedClasses | accessibility-widget.js:329-349 | after both class steps of loading, each feature's class is on iff it was on or its entry is `"true"`, and other classes are untouched |
| Widget.LoadSettings | accessibility-widget.js:316-350 | the store is unchanged; classes, size, family and overlays are as the store dictates; the button and the panel are untouched; from a page with no guide class and no overlay the one-overlay-iff-class invariant holds afterwards |
| Widget.LoadSettingsTwiceDuplicatesGuide | accessibility-widget.js:345-349 | loading a stored reading guide twice leaves two more overlays, not one |
| Events.Press | accessibility-widget.js:104-175 | every button handler keeps the stored size readable, never brings the button back, leaves it alone under the intended lookup, and keeps the overlay invariant whenever the removal takes the overlay; only the toggle and close buttons change panel visibility |
| Events.Dispatch | accessibility-widget.js:104-190 | Escape, an outside click and the close button always hide the panel and change nothing else; the toggle button flips visibility only; every other button keeps visibility, with the single exception that, as written, a click on Reading Guide that turns the guide off removes its own button and so closes the panel; a click inside the widget, on a removed button, or another key changes nothing |
| Events.Run | accessibility-widget.js:104-190 | any session of events keeps the stored size readable, never brings the button back, and keeps the overlay invariant whenever the removal takes the overlay |
| Events.GuideOffClickClosesPanel | accessibility-widget.js:177-182 | with the panel open and the guide on, a click on Reading Guide closes the panel as written and keeps it open under the intended lookup |
| Events.PanelParity | accessibility-widget.js:192-195 | n clicks on the toggle button change visibility iff n is odd, and change nothing else |
| Events.FontClicks | accessibility-widget.js:202-207 | n clicks on A+ or A- do exactly what n font-size steps of +1 or -1 do, whatever the reading-guide lookup |
| Events.StepsUp | accessibility-widget.js:202-207 | from a size in range, n steps up give the size plus 10n, capped at 200 |
| Events.StepsDown | accessibility-widget.js:202-207 | from a size in range, n steps down give the size minus 10n, floored at 50 |
| Events.RepeatedIncrease | accessibility-widget.js:202-207 | from a size in range, n clicks on A+ give the size plus 10n, capped at 200 |
| Events.RepeatedDecrease | accessibility-widget.js:202-207 | from a size in range, n clicks on A- give the size minus 10n, floored at 50 |
| Rehydration.FreshPage | accessibility-widget.js:27-31 | before loading, the page has exactly the host's classes and the given store, no overlay, no inline root size or family (so the effective size is the default), the Reading Guide button, and a hidden panel; when the host carries none of the widget's classes, the one-overlay-iff-class invariant holds |
| Rehydration.Reload | accessibility-widget.js:27-31 | a reloaded page keeps the store and starts with a hidden panel: visibility is never persisted |
| Rehydration.StoredFontStyle | accessibility-widget.js:323-327 | with no family key the page has no inline family; a stored button key implies that button's stack |
| Rehydration.LoadEstablishesPersisted | accessibility-widget.js:316-350 | loading any store with a readable size onto a fresh page yields a look matching the store |
| Rehydration.ToggleKeepsMirror | accessibility-widget.js:214-252 | a toggle keeps every feature's class in step with its entry, under either lookup |
| Rehydration.ToggleKeepsPersisted | accessibility-widget.js:214-252 | under the intended lookup a toggle keeps the look matching the store |
| Rehydration.FontSizeKeepsPersisted | accessibility-widget.js:202-212 | stepping or resetting the size keeps the look matching the store |
| Rehydration.FontFamilyKeepsPersisted | accessibility-widget.js:254-262 | a font button keeps the look matching the store |
| Rehydration.ResetAllKeepsPersisted | accessibility-widget.js:285-314 | under the intended lookup reset keeps the look matching the emptied store |
| Rehydration.DispatchPreservesPersisted | accessibility-widget.js:104-190 | under the intended lookup every user event keeps the look matching the store |
| Rehydration.RunPreservesPersisted | accessibility-widget.js:104-190 | under the intended lookup every sequence of user events keeps the look matching the store |
| Rehydration.ReloadFeatureClass | accessibility-widget.js:329-349 | after a reload a feature's class is on iff its entry is `"true"` |
| Rehydration.ReloadKeepsClasses | accessibility-widget.js:329-349 | when classes mirror the store, a reload brings back exactly the same class set |
| Rehydration.PersistedReloadsSame | accessibility-widget.js:316-350 | a page whose look matches its store looks the same after a reload |
| Rehydration.SessionSurvivesReload | accessibility-widget.js:27-31 | under the intended lookup, after loading and any session of user events, a reload reproduces classes, overlays, button, family and effective root size, with the panel hidden |
| Rehydration.GuideClickedTwice | accessibility-widget.js:150-152 | as written, two clicks on Reading Guide from a page with the guide off leave `"false"` stored, one overlay, no button and a closed panel |
| Rehydration.GuideTwiceBreaksReload | accessibility-widget.js:27-31 | as written, after opening the panel and two clicks on Reading Guide the page shows an overlay and no button, while a reload shows no overlay and the button again, so the look does not survive the reload |

## Findings

| source | as written | input that shows it | evidently intended | confidence | as-written member | corrected member |
|---|---|---|---|---|---|---|
| accessibility-widget.js:281 | the panel's Reading Guide button (line 79) and the overlay (line 266) share the id `reading-guide`; the button comes first in document order, so the lookup removes the button and leaves the overlay | any page: one click on Reset All removes the button, after which the guide cannot be switched on until a reload; or empty store, click Reading Guide twice | the lookup finds the overlay, so turning the guide off removes it and keeps the button | high, not executed | Widget.GuideOffRemovesButton | Widget.RemoveOverlay |
| accessibility-widget.js:177-182 | the click that turns the guide off removes its own target before the document listener runs; the detached target is inside neither widget element, so the panel closes | panel open, guide on, click Reading Guide | a click on a panel button keeps the panel open | high, not executed | Events.GuideOffClickClosesPanel | Events.Dispatch |

The rest of the model states its invariants for the intended lookup
`OverlayOnly`; `Rehydration.GuideTwiceBreaksReload` shows that the reload
theorem fails for the lookup as written.

## Left out

- The HTML and SVG markup of the toggle button and the panel (accessibility-widget.js:34-102) is not modelled: it is markup with no behaviour. Of the panel's buttons only the presence of the Reading Guide button is tracked, because only it can be removed.
- Listener registration, the `closest` test for outside clicks, and the key-event plumbing (accessibility-widget.js:104-190) are reduced to their effect in `Dispatch`. The event kinds are given, not computed from the DOM.
- The start-up on `DOMContentLoaded` (accessibility-widget.js:353-358) is represented only by `LoadSettings` on a `FreshPage`.
- The `config` object (accessibility-widget.js:5-23) is never read by the widget and is not modelled.
- The overlay's inline CSS (accessibility-widget.js:267-276) and what each class looks like are left out. Both depend on the browser and on a stylesheet outside the widget.
- ReadFontSize: models `parseInt` only on an absent or empty entry and on an optional minus sign followed by digits. Leading blanks, `+`, trailing text, hexadecimal prefixes and text with no leading number (`NaN`) are not modelled.
- ChangeFontSize: requires a readable stored size, for the reason above. On other entries the source computes from whatever number `parseInt` reads, or stores `NaN` and assigns `NaN%` to the root's font size, which a browser rejects, keeping the previous size.
- ChangeFontSize: JavaScript numbers are doubles. The model computes with exact integers, which agree with them for every size the widget's buttons produce.
- FontStyleFor: treats every key outside the three buttons as a missing table entry (`UndefinedLookup`). A key naming a property the table inherits from `Object.prototype` (`constructor`, `toString`, `__proto__` and the like) looks up that property instead, and the model does not say what the browser then does with the body's font-family.
- LoadFontSize: the root font-size field is the text assigned to the root's inline style, not the size a browser keeps. A browser ignores a value it cannot parse, such as the `-10%` a stored `"-10"` produces, and keeps the previous size; the model records the assigned text.
- EffectiveRootFontSize: assumes that an unset inline root font size renders the same as `100%`. That holds only when the host's stylesheet sets no root font size. On a host with, say, `html { font-size: 62.5% }`, the `100%` that resetting the size or resetting everything assigns (accessibility-widget.js:211, 298) differs from the unset size a reload leaves. The size clause of `SameLook`, and with it `SessionSurvivesReload`, relies on this assumption about the host.
- Errors thrown by the store (quota, disabled storage), other tabs writing the same store, and other scripts removing the overlay node are not modelled.
- Running the start-up twice, which duplicates the widget's DOM, is not modelled beyond `LoadSettingsTwiceDuplicatesGuide`.

=== FILE: decimal.dfy ===
/**
  Decimal text for integers, as the widget's key-value store sees them.

  The store only holds strings: writing the number `n` stores its decimal
  rendering, and reading the font size back goes through `parseInt`. This
  module gives both directions for the strings the widget itself writes
  (an optional minus sign followed by decimal digits) and proves that
  reading back what was written yields the same integer.
 */
module Decimal {

  predicate IsDigit(c: char) {
    '0' <= c <= '9'
  }

  predicate AllDigits(s: string) {
    forall i :: 0 <= i < |s| ==> IsDigit(s[i])
  }

  /** An optional '-' followed by at least one decimal digit. */
  predicate IsDecimal(s: string) {
    if |s| > 0 && s[0] == '-' then |s| > 1 && AllDigits(s[1..])
    else |s| > 0 && AllDigits(s)
  }

  function DigitValue(c: char): (d: nat)
    requires IsDigit(c)
    ensures d < 10
  {
    c as int - '0' as int
  }

  function DigitChar(d: nat): (c: char)
    requires d < 10
    ensures IsDigit(c) && DigitValue(c) == d
  {
    ('0' as int + d) as char
  }

  /** Shortest decimal rendering of a natural number: no leading zero except for 0 itself. */
  function NatToString(n: nat): (s: string)
    ensures |s| > 0 && AllDigits(s)
    ensures s[0] == '0' ==> n == 0
    decreases n
  {
    if n < 10 then [DigitChar(n)] else NatToString(n / 10) + [DigitChar(n % 10)]
  }

  /** Value of a string of decimal digits, most significant first; leading zeros are allowed. */
  function ParseDigits(s: string): (n: nat)
    requires AllDigits(s)
    decreases |s|
  {
    if |s| == 0 then 0 else 10 * ParseDigits(s[..|s| - 1]) + DigitValue(s[|s| - 1])
  }

  /** What `String(n)` produces for an integer-valued JavaScript number. */
  function IntToString(i: int): (s: string)
    ensures IsDecimal(s)
    ensures i >= 0 <==> s[0] != '-'
  {
    if i < 0 then "-" + NatToString(-i) else NatToString(i)
  }

  /** What `parseInt` returns for a string that `IsDecimal` accepts. */
  function ParseDecimal(s: string): (r: int)
    requires IsDecimal(s)
    ensures r < 0 ==> s[0] == '-'
    ensures s[0] == '-' ==> r <= 0
  {
    if s[0] == '-' then 0 - ParseDigits(s[1..]) else ParseDigits(s)
  }

  lemma {:induction false} ParseNatToString(n: nat)
    ensures ParseDigits(NatToString(n)) == n
    decreases n
  {
    var s := NatToString(n);
    if n >= 10 {
      ParseNatToString(n / 10);
      assert s[..|s| - 1] == NatToString(n / 10);
    }
  }

  /** Reading back the decimal rendering of an integer gives that integer. */
  lemma IntToStringRoundTrip(i: int)
    ensures IsDecimal(IntToString(i))
    ensures ParseDecimal(IntToString(i)) == i
  {
    var s := IntToString(i);
    if i < 0 {
      ParseNatToString(-i);
      assert s[1..] == NatToString(-i);
    } else {
      ParseNatToString(i);
    }
  }

  /** Distinct integers are written as distinct strings, so the store never confuses two sizes. */
  lemma IntToStringInjective(i: int, j: int)
    requires IntToString(i) == IntToString(j)
    ensures i == j
  {
    IntToStringRoundTrip(i);
    IntToStringRoundTrip(j);
  }
}

=== FILE: events.dfy ===
/**
  The widget's event wiring, reduced to its effect: which transition each
  user action triggers. A click on one of the widget's buttons runs that
  button's operation and, as long as the button is still inside the
  widget afterwards, does not close the panel; any other click inside the
  toggle button or the panel changes nothing; a click outside both closes
  the panel; so does Escape.
 */
module Events {
  import opened Widget

  /** The buttons the widget wires up. */
  datatype Control =
    | PanelToggle
    | CloseButton
    | IncreaseFont
    | DecreaseFont
    | ResetFont
    | FeatureButton(feature: Feature)
    | FontButton(choice: FontChoice)
    | ResetAllButton

  datatype Event =
    | Click(control: Control) // a click on one of the widget's buttons
    | ClickInside             // a click elsewhere inside the toggle button or the panel
    | ClickOutside            // a click anywhere else in the document
    | KeyDown(key: string)

  /** Whether the control is in the page: only the Reading Guide button can be taken out of it. */
  predicate Present(st: WidgetState, c: Control) {
    c != FeatureButton(ReadingGuide) || st.guideButton
  }

  /**
    The click's handler removes the very button that was clicked: the
    Reading Guide button turning the guide off while the removal can reach
    that button.
   */
  predicate RemovesOwnButton(st: WidgetState, c: Control, lookup: GuideLookup) {
    c == FeatureButton(ReadingGuide) && ReadingGuide.Name() in st.bodyClasses && !RemovesOverlay(st, lookup)
  }

  /** The handler bound to a button. */
  function Press(st: WidgetState, c: Control, lookup: GuideLookup): (r: WidgetState)
    requires FontSizeReadable(st.storage)
    ensures FontSizeReadable(r.storage)
    ensures GuideConsistent(st) && RemovesOverlay(st, lookup) ==> GuideConsistent(r)
    ensures r.guideButton ==> st.guideButton
    ensures lookup == OverlayOnly ==> r.guideButton == st.guideButton
    ensures c != PanelToggle && c != CloseButton ==> r.panelActive == st.panelActive
  {
    match c
    case PanelToggle => TogglePanel(st)
    case CloseButton => HidePanel(st)
    case IncreaseFont => ChangeFontSize(st, 1)
    case DecreaseFont => ChangeFontSize(st, -1)
    case ResetFont => ResetFontSize(st)
    case FeatureButton(f) => ToggleFeature(st, f, lookup)
    case FontButton(choice) => ChangeFontFamily(st, choice.Key())
    case ResetAllButton => ResetAll(st, lookup)
  }

  /**
    Everything one event does, including the document-level click and key
    listeners. A click on a button runs its handler first; the document's
    listener then closes the panel unless the click's target is still
    inside the widget, which fails only when the handler removed the very
    button that was clicked. A button no longer in the page cannot be
    clicked: such a click changes nothing.
   */
  function Dispatch(st: WidgetState, e: Event, lookup: GuideLookup): (r: WidgetState)
    requires FontSizeReadable(st.storage)
    ensures FontSizeReadable(r.storage)
    ensures GuideConsistent(st) && RemovesOverlay(st, lookup) ==> GuideConsistent(r)
    ensures r.guideButton ==> st.guideButton
    ensures lookup == OverlayOnly ==> r.guideButton == st.guideButton
    ensures e == ClickOutside || e == KeyDown("Escape") || e == Click(CloseButton) ==>
              !r.panelActive && r.(panelActive := st.panelActive) == st
    ensures e == Click(PanelToggle) ==>
              r.panelActive != st.panelActive && r.(panelActive := st.panelActive) == st
    ensures e.Click? && e != Click(PanelToggle) && e != Click(CloseButton) && !RemovesOwnButton(st, e.control, lookup) ==>
              r.panelActive == st.panelActive
    ensures e.Click? && RemovesOwnButton(st, e.control, lookup) ==> !r.panelActive && !r.guideButton
    ensures e == ClickInside || (e.KeyDown? && e.key != "Escape") || (e.Click? && !Present(st, e.control)) ==> r == st
  {
    match e
    case Click(c) =>
      if !Present(st, c) then st
      else
        var pressed := Press(st, c, lookup);
        if Present(pressed, c) then pressed else HidePanel(pressed)
    case ClickInside => st
    case ClickOutside => HidePanel(st)
    case KeyDown(key) => if key == "Escape" then HidePanel(st) else st
  }

  /** The state after a whole session of events, one after another. */
  function Run(st: WidgetState, events: seq<Event>, lookup: GuideLookup): (r: WidgetState)
    requires FontSizeReadable(st.storage)
    ensures FontSizeReadable(r.storage)
    ensures GuideConsistent(st) && RemovesOverlay(st, lookup) ==> GuideConsistent(r)
    ensures r.guideButton ==> st.guideButton
    ensures lookup == OverlayOnly ==> r.guideButton == st.guideButton
    decreases |events|
  {
    if |events| == 0 then st else Run(Dispatch(st, events[0], lookup), events[1..], lookup)
  }

  /**
    The lookup as written: with the panel open and the reading guide on,
    clicking the Reading Guide button removes that button, so the document
    listener no longer sees the click as inside the widget and closes the
    panel. Under the intended lookup the panel stays open.
   */
  lemma GuideOffClickClosesPanel(st: WidgetState)
    requires FontSizeReadable(st.storage)
    requires st.panelActive && st.guideButton
    requires ReadingGuide.Name() in st.bodyClasses
    ensures !Dispatch(st, Click(FeatureButton(ReadingGuide)), FirstWithId).panelActive
    ensures Dispatch(st, Click(FeatureButton(ReadingGuide)), OverlayOnly).panelActive
  {
  }

  function Repeat(e: Event, n: nat): (s: seq<Event>)
    ensures |s| == n && forall i :: 0 <= i < n ==> s[i] == e
  {
    seq(n, _ => e)
  }

  lemma RepeatTail(e: Event, n: nat)
    requires n > 0
    ensures Repeat(e, n)[0] == e && Repeat(e, n)[1..] == Repeat(e, n - 1)
  {
  }

  /**
    Clicking the toggle button n times leaves the panel visible iff it was
    visible and n is even, or hidden and n is odd; nothing else changes.
   */
  lemma {:induction false} PanelParity(st: WidgetState, n: nat, lookup: GuideLookup)
    requires FontSizeReadable(st.storage)
    ensures Run(st, Repeat(Click(PanelToggle), n), lookup)
         == st.(panelActive := if n % 2 == 0 then st.panelActive else !st.panelActive)
    decreases n
  {
    if n > 0 {
      RepeatTail(Click(PanelToggle), n);
      PanelParity(TogglePanel(st), n - 1, lookup);
    }
  }

  /** The font size stepped n times by the same delta. */
  function StepFontSize(st: WidgetState, delta: int, n: nat): (r: WidgetState)
    requires FontSizeReadable(st.storage)
    ensures FontSizeReadable(r.storage)
    decreases n
  {
    if n == 0 then st else StepFontSize(ChangeFontSize(st, delta), delta, n - 1)
  }

  /** n clicks on A+ or A- step the font size n times and do nothing else. */
  lemma {:induction false} FontClicks(st: WidgetState, n: nat, lookup: GuideLookup)
    requires FontSizeReadable(st.storage)
    ensures Run(st, Repeat(Click(IncreaseFont), n), lookup) == StepFontSize(st, 1, n)
    ensures Run(st, Repeat(Click(DecreaseFont), n), lookup) == StepFontSize(st, -1, n)
    decreases n
  {
    if n > 0 {
      RepeatTail(Click(IncreaseFont), n);
      RepeatTail(Click(DecreaseFont), n);
      assert Dispatch(st, Click(IncreaseFont), lookup) == ChangeFontSize(st, 1);
      assert Dispatch(st, Click(DecreaseFont), lookup) == ChangeFontSize(st, -1);
      FontClicks(ChangeFontSize(st, 1), n - 1, lookup);
      FontClicks(ChangeFontSize(st, -1), n - 1, lookup);
    }
  }

  /** From a size in range, n steps up give the size plus 10n, capped at 200. */
  lemma {:induction false} StepsUp(st: WidgetState, n: nat)
    requires FontSizeReadable(st.storage)
    requires 50 <= ReadFontSize(st.storage) <= 200
    ensures ReadFontSize(StepFontSize(st, 1, n).storage)
         == if ReadFontSize(st.storage) + 10 * n > 200 then 200 else ReadFontSize(st.storage) + 10 * n
    decreases n
  {
    if n > 0 {
      StepsUp(ChangeFontSize(st, 1), n - 1);
    }
  }

  /** From a size in range, n steps down give the size minus 10n, floored at 50. */
  lemma {:induction false} StepsDown(st: WidgetState, n: nat)
    requires FontSizeReadable(st.storage)
    requires 50 <= ReadFontSize(st.storage) <= 200
    ensures ReadFontSize(StepFontSize(st, -1, n).storage)
         == if ReadFontSize(st.storage) - 10 * n < 50 then 50 else ReadFontSize(st.storage) - 10 * n
    decreases n
  {
    if n > 0 {
      StepsDown(ChangeFontSize(st, -1), n - 1);
    }
  }

  /** From a size in range, n clicks on A+ give the size plus 10n, capped at 200. */
  lemma RepeatedIncrease(st: WidgetState, n: nat, lookup: GuideLookup)
    requires FontSizeReadable(st.storage)
    requires 50 <= ReadFontSize(st.storage) <= 200
    ensures var r := Run(st, Repeat(Click(IncreaseFont), n), lookup);
      ReadFontSize(r.storage) == if ReadFontSize(st.storage) + 10 * n > 200 then 200
                                 else ReadFontSize(st.storage) + 10 * n
  {
    FontClicks(st, n, lookup);
    StepsUp(st, n);
  }

  /** From a size in range, n clicks on A- give the size minus 10n, floored at 50. */
  lemma RepeatedDecrease(st: WidgetState, n: nat, lookup: GuideLookup)
    requires FontSizeReadable(st.storage)
    requires 50 <= ReadFontSize(st.storage) <= 200
    ensures var r := Run(st, Repeat(Click(DecreaseFont), n), lookup);
      ReadFontSize(r.storage) == if ReadFontSize(st.storage) - 10 * n < 50 then 50
                                 else ReadFontSize(st.storage) - 10 * n
  {
    FontClicks(st, n, lookup);
    StepsDown(st, n);
  }
}

=== FILE: rehydration.dfy ===
/**
  What survives a page reload. Only the store outlives the page; loading
  the settings on the new page must rebuild the look the user had. The
  invariant `Persisted` says that the look is the one the store implies;
  loading establishes it, every user action keeps it, and a state that
  satisfies it looks the same after a reload.
 */
module Rehydration {
  import opened Widget
  import opened Events

  /**
    A page once the widget's toggle button and panel are built and before
    the settings are loaded: the host's own classes, no inline styles, no
    overlay, the Reading Guide button in place, the panel hidden.
   */
  function FreshPage(hostClasses: set<string>, storage: map<string, string>): (r: WidgetState)
    ensures r.storage == storage && r.bodyClasses == hostClasses
    ensures r.guideCount == 0 && r.rootFontSize == ""
    ensures hostClasses !! ClassNames ==> GuideConsistent(r)
    ensures EffectiveRootFontSize(r.rootFontSize) == "100%" && r.bodyFontFamily == Unset
    ensures r.guideButton && !r.panelActive
  {
    WidgetState(hostClasses, storage, "", Unset, 0, true, false)
  }

  /** The same page loaded again: the widget's classes and styles are gone, the store is kept, then settings load. */
  function Reload(st: WidgetState): (r: WidgetState)
    ensures r.storage == st.storage
    ensures !r.panelActive
  {
    LoadSettings(FreshPage(st.bodyClasses - ClassNames, st.storage))
  }

  /** The family a store implies: none for an absent or empty key, otherwise the lookup of the key. */
  function StoredFontStyle(storage: map<string, string>): (s: FontStyle)
    ensures FontFamilyKey !in storage ==> s == Unset
    ensures forall c: FontChoice :: StoredAs(storage, FontFamilyKey, c.Key()) ==> s == Stack(c.Stack())
  {
    if FontFamilyKey in storage && storage[FontFamilyKey] != "" then FontStyleFor(storage[FontFamilyKey])
    else Unset
  }

  predicate StoredAs(storage: map<string, string>, key: string, value: string) {
    key in storage && storage[key] == value
  }

  /** The look of the page is the one its store implies, with the panel's Reading Guide button in place. */
  predicate Persisted(st: WidgetState) {
    && FontSizeReadable(st.storage)
    && GuideConsistent(st)
    && st.guideButton
    && (forall f: Feature :: f.Name() in st.bodyClasses <==> StoredTrue(st.storage, f.Name()))
    && (if FontSizeKey in st.storage && st.storage[FontSizeKey] != ""
        then st.rootFontSize == st.storage[FontSizeKey] + "%"
        else st.rootFontSize in {"", "100%"})
    && st.bodyFontFamily == StoredFontStyle(st.storage)
  }

  /** An unset root font size renders as the default, 100%. */
  function EffectiveRootFontSize(css: string): (e: string)
    ensures e != ""
    ensures css != "" ==> e == css
  {
    if css == "" then "100%" else css
  }

  /** Two pages a user cannot tell apart: same classes, overlays, buttons, family and effective root size. */
  predicate SameLook(a: WidgetState, b: WidgetState) {
    && a.bodyClasses == b.bodyClasses
    && a.guideCount == b.guideCount
    && a.guideButton == b.guideButton
    && a.bodyFontFamily == b.bodyFontFamily
    && EffectiveRootFontSize(a.rootFontSize) == EffectiveRootFontSize(b.rootFontSize)
  }

  /** Loading the settings on a fresh page yields a look that matches the store. */
  lemma LoadEstablishesPersisted(hostClasses: set<string>, storage: map<string, string>)
    requires hostClasses !! ClassNames
    requires FontSizeReadable(storage)
    ensures Persisted(LoadSettings(FreshPage(hostClasses, storage)))
  {
    var st := FreshPage(hostClasses, storage);
    forall f: Feature
      ensures f.Name() !in st.bodyClasses
    {
      FeatureNames(f, f);
    }
  }

  /** A toggle keeps every feature's class in step with its entry. */
  lemma ToggleKeepsMirror(st: WidgetState, g: Feature, lookup: GuideLookup)
    requires forall f: Feature :: f.Name() in st.bodyClasses <==> StoredTrue(st.storage, f.Name())
    ensures var r := ToggleFeature(st, g, lookup);
      forall f: Feature :: f.Name() in r.bodyClasses <==> StoredTrue(r.storage, f.Name())
  {
    var r := ToggleFeature(st, g, lookup);
    forall f: Feature
      ensures f.Name() in r.bodyClasses <==> StoredTrue(r.storage, f.Name())
    {
      FeatureNames(f, g);
    }
  }

  /** A feature toggle writes the class and its entry together. */
  lemma ToggleKeepsPersisted(st: WidgetState, g: Feature)
    requires Persisted(st)
    ensures Persisted(ToggleFeature(st, g, OverlayOnly))
  {
    ToggleKeepsMirror(st, g, OverlayOnly);
    FeatureNames(g, g);
  }

  /** Stepping or resetting the font size writes the entry and the root size together. */
  lemma FontSizeKeepsPersisted(st: WidgetState, delta: int)
    requires Persisted(st)
    ensures Persisted(ChangeFontSize(st, delta))
    ensures Persisted(ResetFontSize(st))
  {
    forall f: Feature ensures f.Name() != FontSizeKey { FeatureNames(f, f); }
  }

  /** A font button writes the family and its key together. */
  lemma FontFamilyKeepsPersisted(st: WidgetState, choice: FontChoice)
    requires Persisted(st)
    ensures Persisted(ChangeFontFamily(st, choice.Key()))
  {
    forall f: Feature ensures f.Name() != FontFamilyKey { FeatureNames(f, f); }
  }

  /** Resetting everything leaves a look that matches the emptied store. */
  lemma ResetAllKeepsPersisted(st: WidgetState)
    requires Persisted(st)
    ensures Persisted(ResetAll(st, OverlayOnly))
  {
    forall f: Feature ensures f.Name() in ClassNames { FeatureNames(f, f); }
  }

  /** Every user action keeps the look in step with the store. */
  lemma DispatchPreservesPersisted(st: WidgetState, e: Event)
    requires Persisted(st)
    ensures Persisted(Dispatch(st, e, OverlayOnly))
  {
    if e.Click? {
      match e.control
      case FeatureButton(g) => ToggleKeepsPersisted(st, g);
      case IncreaseFont => FontSizeKeepsPersisted(st, 1);
      case DecreaseFont => FontSizeKeepsPersisted(st, -1);
      case ResetFont => FontSizeKeepsPersisted(st, 0);
      case FontButton(choice) => FontFamilyKeepsPersisted(st, choice);
      case ResetAllButton => ResetAllKeepsPersisted(st);
      case _ =>
    }
  }

  lemma {:induction false} RunPreservesPersisted(st: WidgetState, events: seq<Event>)
    requires Persisted(st)
    ensures Persisted(Run(st, events, OverlayOnly))
    decreases |events|
  {
    if |events| > 0 {
      DispatchPreservesPersisted(st, events[0]);
      RunPreservesPersisted(Dispatch(st, events[0], OverlayOnly), events[1..]);
    }
  }

  /** A feature's class is on after a reload iff its entry is "true". */
  lemma ReloadFeatureClass(st: WidgetState, f: Feature)
    ensures f.Name() in Reload(st).bodyClasses <==> StoredTrue(st.storage, f.Name())
  {
    FeatureNames(f, f);
  }

  /** When the feature classes match the store, a reload brings back exactly the same classes. */
  lemma ReloadKeepsClasses(st: WidgetState)
    requires forall f: Feature :: f.Name() in st.bodyClasses <==> StoredTrue(st.storage, f.Name())
    ensures Reload(st).bodyClasses == st.bodyClasses
  {
    var r := Reload(st);
    assert r.bodyClasses - ClassNames == st.bodyClasses - ClassNames;
    forall c
      ensures c in st.bodyClasses <==> c in r.bodyClasses
    {
      if c in ClassNames {
        ReloadFeatureClass(st, FeatureNamed(c));
      } else {
        assert c in st.bodyClasses <==> c in st.bodyClasses - ClassNames;
      }
    }
  }

  /** A page whose look matches its store looks the same after a reload. */
  lemma PersistedReloadsSame(st: WidgetState)
    requires Persisted(st)
    ensures SameLook(st, Reload(st))
  {
    ReloadKeepsClasses(st);
  }

  /**
    Whatever the user does after the page loads, reloading the page shows
    the same look again, provided the reading-guide removal takes the
    overlay. Panel visibility is not part of the look: a reloaded panel is
    always hidden.
   */
  lemma SessionSurvivesReload(hostClasses: set<string>, storage: map<string, string>, events: seq<Event>)
    requires hostClasses !! ClassNames
    requires FontSizeReadable(storage)
    ensures var st := Run(LoadSettings(FreshPage(hostClasses, storage)), events, OverlayOnly);
      SameLook(st, Reload(st)) && !Reload(st).panelActive
  {
    LoadEstablishesPersisted(hostClasses, storage);
    var st := Run(LoadSettings(FreshPage(hostClasses, storage)), events, OverlayOnly);
    RunPreservesPersisted(LoadSettings(FreshPage(hostClasses, storage)), events);
    PersistedReloadsSame(st);
  }

  /** A session of three events is the three dispatches in order. */
  lemma RunThree(st: WidgetState, a: Event, b: Event, c: Event, lookup: GuideLookup)
    requires FontSizeReadable(st.storage)
    ensures Run(st, [a, b, c], lookup)
         == Dispatch(Dispatch(Dispatch(st, a, lookup), b, lookup), c, lookup)
  {
    var s1 := Dispatch(st, a, lookup);
    var s2 := Dispatch(s1, b, lookup);
    assert [a, b, c][1..] == [b, c];
    assert [b, c][1..] == [c];
    assert [c][1..] == [];
    assert Run(s2, [c], lookup) == Run(Dispatch(s2, c, lookup), [], lookup);
  }

  /** Two clicks on the Reading Guide button under the lookup as written, from a page with the guide off. */
  lemma GuideClickedTwice(st: WidgetState)
    requires FontSizeReadable(st.storage)
    requires st.guideButton && st.guideCount == 0 && ReadingGuide.Name() !in st.bodyClasses
    ensures var click := Click(FeatureButton(ReadingGuide));
      var r := Dispatch(Dispatch(st, click, FirstWithId), click, FirstWithId);
      && ReadingGuide.Name() !in r.bodyClasses
      && r.storage == st.storage[ReadingGuide.Name() := "false"]
      && r.guideCount == 1 && !r.guideButton && !r.panelActive
  {
    var click := Click(FeatureButton(ReadingGuide));
    var once := Dispatch(st, click, FirstWithId);
    assert once == ToggleFeature(st, ReadingGuide, FirstWithId);
    assert ReadingGuide.Name() in once.bodyClasses && once.guideCount == 1 && once.guideButton;
    assert once.storage == st.storage[ReadingGuide.Name() := "true"];
    var twice := Dispatch(once, click, FirstWithId);
    assert twice == HidePanel(ToggleFeature(once, ReadingGuide, FirstWithId));
    assert twice.storage == st.storage[ReadingGuide.Name() := "true"][ReadingGuide.Name() := "false"];
  }

  /**
    The lookup as written: on a page whose store does not switch the
    reading guide on, opening the panel and clicking Reading Guide twice
    leaves the guide off in the store and on the body but an overlay on
    the page, the button gone and the panel closed again. A reload shows
    no overlay and the button again, so the look does not survive the
    reload.
   */
  lemma GuideTwiceBreaksReload(hostClasses: set<string>, storage: map<string, string>)
    requires hostClasses !! ClassNames
    requires FontSizeReadable(storage)
    requires !StoredTrue(storage, ReadingGuide.Name())
    ensures var st := Run(LoadSettings(FreshPage(hostClasses, storage)),
                          [Click(PanelToggle), Click(FeatureButton(ReadingGuide)), Click(FeatureButton(ReadingGuide))],
                          FirstWithId);
      && ReadingGuide.Name() !in st.bodyClasses
      && StoredAs(st.storage, ReadingGuide.Name(), "false")
      && st.guideCount == 1 && !st.guideButton && !st.panelActive
      && Reload(st).guideCount == 0 && Reload(st).guideButton
      && !SameLook(st, Reload(st))
  {
    var click := Click(FeatureButton(ReadingGuide));
    var loaded := LoadSettings(FreshPage(hostClasses, storage));
    FeatureNames(ReadingGuide, ReadingGuide);
    var shown := Dispatch(loaded, Click(PanelToggle), FirstWithId);
    assert ReadingGuide.Name() !in shown.bodyClasses && shown.guideCount == 0 && shown.guideButton;
    assert shown.panelActive && shown.storage == storage;
    GuideClickedTwice(shown);
    var once := Dispatch(shown, click, FirstWithId);
    var st := Dispatch(once, click, FirstWithId);
    RunThree(loaded, Click(PanelToggle), click, click, FirstWithId);
    assert Reload(st).guideCount == 0 by {
      assert !StoredTrue(st.storage, ReadingGuide.Name());
    }
  }
}

=== FILE: widget.dfy ===
/**
  The accessibility widget as a state machine.

  The page is reduced to the values the widget reads and writes: the body's
  class list, the origin's key-value store, the root element's inline
  font-size, the body's inline font-family, how many reading-guide overlay
  nodes exist, and whether the panel carries its `active` class. Every
  operation of the widget is a pure transition on that record.
 */
module Widget {
  import opened Decimal

  /** The seven on/off features. Each one is one body class. */
  datatype Feature = HighContrast | NegativeContrast | Grayscale | LightBackground
                   | HighlightLinks | ReadingGuide | BigCursor
  {
    /** The body class this feature flips; its state is stored under the same key. */
    function Name(): string {
      match this
      case HighContrast => "accessibility-high-contrast"
      case NegativeContrast => "accessibility-negative-contrast"
      case Grayscale => "accessibility-grayscale"
      case LightBackground => "accessibility-light-bg"
      case HighlightLinks => "accessibility-highlight-links"
      case ReadingGuide => "accessibility-reading-guide"
      case BigCursor => "accessibility-big-cursor"
    }
  }

  /** The three buttons of the font section. */
  datatype FontChoice = Dyslexic | Sans | Serif
  {
    /** The key that is passed to the font-family operation and stored. */
    function Key(): string {
      match this
      case Dyslexic => "dyslexic"
      case Sans => "sans"
      case Serif => "serif"
    }

    /** The font stack the key resolves to. */
    function Stack(): string {
      match this
      case Dyslexic => "OpenDyslexic, Arial, sans-serif"
      case Sans => "Arial, Helvetica, sans-serif"
      case Serif => "Georgia, Times, serif"
    }
  }

  const FontSizeKey: string := "accessibility-font-size"
  const FontFamilyKey: string := "accessibility-font-family"

  /** The body classes the widget owns. */
  const ClassNames: set<string> := {
    "accessibility-high-contrast", "accessibility-negative-contrast",
    "accessibility-grayscale", "accessibility-light-bg",
    "accessibility-highlight-links", "accessibility-reading-guide",
    "accessibility-big-cursor"
  }

  /** The nine storage keys the widget owns. */
  const WidgetKeys: set<string> := ClassNames + {FontSizeKey, FontFamilyKey}

  /** The classes of the six features that the settings loader only has to re-add. */
  const PlainNames: seq<string> := [
    HighContrast.Name(), NegativeContrast.Name(), Grayscale.Name(),
    LightBackground.Name(), HighlightLinks.Name(), BigCursor.Name()
  ]

  /** The body's inline font-family. */
  datatype FontStyle =
    | Unset              // the empty string: no inline family
    | Stack(css: string) // one of the known font stacks
    | UndefinedLookup    // the value `undefined`, from looking up a key the table lacks

  datatype WidgetState = WidgetState(
    bodyClasses: set<string>,
    storage: map<string, string>,
    rootFontSize: string,      // the root element's inline font-size text, "" when unset
    bodyFontFamily: FontStyle,
    guideCount: nat,           // number of reading-guide overlay nodes in the page
    guideButton: bool,         // the panel's Reading Guide button is still in the page
    panelActive: bool)

  /**
    How the reading-guide removal finds the node it removes. The panel's
    Reading Guide button and the overlay carry the same id, and the panel
    precedes every overlay in document order.
   */
  datatype GuideLookup =
    | FirstWithId // the lookup by id as written: the button while it exists, else the first overlay
    | OverlayOnly // the evidently intended lookup: the first overlay, never the button

  predicate StoredTrue(storage: map<string, string>, key: string) {
    key in storage && storage[key] == "true"
  }

  /** The reading-guide overlay exists exactly once while its class is on, and not at all otherwise. */
  predicate GuideConsistent(st: WidgetState) {
    st.guideCount == if ReadingGuide.Name() in st.bodyClasses then 1 else 0
  }

  /** The stored font size is absent, empty, or an integer that `parseInt` reads exactly. */
  predicate FontSizeReadable(storage: map<string, string>) {
    FontSizeKey in storage ==> storage[FontSizeKey] == "" || IsDecimal(storage[FontSizeKey])
  }

  /** Feature names are pairwise distinct, are the widget's classes, and are neither font key. */
  lemma FeatureNames(f: Feature, g: Feature)
    ensures f.Name() in ClassNames
    ensures f.Name() != FontSizeKey && f.Name() != FontFamilyKey
    ensures f.Name() == g.Name() ==> f == g
  {
  }

  /** The feature a widget class belongs to. */
  function FeatureNamed(c: string): (f: Feature)
    requires c in ClassNames
    ensures f.Name() == c
  {
    if c == HighContrast.Name() then HighContrast
    else if c == NegativeContrast.Name() then NegativeContrast
    else if c == Grayscale.Name() then Grayscale
    else if c == LightBackground.Name() then LightBackground
    else if c == HighlightLinks.Name() then HighlightLinks
    else if c == ReadingGuide.Name() then ReadingGuide
    else BigCursor
  }

  // ---------------------------------------------------------------------
  // Panel visibility

  function TogglePanel(st: WidgetState): (r: WidgetState)
    ensures r.panelActive != st.panelActive
    ensures r.(panelActive := st.panelActive) == st
  {
    st.(panelActive := !st.panelActive)
  }

  function HidePanel(st: WidgetState): (r: WidgetState)
    ensures !r.panelActive
    ensures r.(panelActive := st.panelActive) == st
  {
    st.(panelActive := false)
  }

  lemma HidePanelIdempotent(st: WidgetState)
    ensures HidePanel(HidePanel(st)) == HidePanel(st)
    ensures TogglePanel(TogglePanel(st)) == st
  {
  }

  // ---------------------------------------------------------------------
  // Font size

  /** `Math.max(50, Math.min(200, n))`. */
  function Clamp(n: int): (r: int)
    ensures 50 <= r <= 200
    ensures 50 <= n <= 200 ==> r == n
    ensures n < 50 ==> r == 50
    ensures n > 200 ==> r == 200
  {
    var capped := if n < 200 then n else 200;
    if capped > 50 then capped else 50
  }

  /** The current size as the font-size operation reads it: an absent or empty entry counts as 100. */
  function ReadFontSize(storage: map<string, string>): (n: int)
    requires FontSizeReadable(storage)
    ensures FontSizeKey !in storage || storage[FontSizeKey] == "" ==> n == 100
  {
    if FontSizeKey !in storage || storage[FontSizeKey] == "" then 100
    else ParseDecimal(storage[FontSizeKey])
  }

  function ChangeFontSize(st: WidgetState, delta: int): (r: WidgetState)
    requires FontSizeReadable(st.storage)
    ensures FontSizeReadable(r.storage)
    ensures ReadFontSize(r.storage) == Clamp(ReadFontSize(st.storage) + 10 * delta)
    ensures 50 <= ReadFontSize(r.storage) <= 200
    ensures FontSizeKey in r.storage && r.rootFontSize == r.storage[FontSizeKey] + "%"
    ensures FontSizeKey in r.storage && r.storage[FontSizeKey] == IntToString(Clamp(ReadFontSize(st.storage) + 10 * delta))
    ensures r.storage - {FontSizeKey} == st.storage - {FontSizeKey}
    ensures r.(storage := st.storage, rootFontSize := st.rootFontSize) == st
  {
    var size := Clamp(ReadFontSize(st.storage) + 10 * delta);
    IntToStringRoundTrip(size);
    var text := IntToString(size);
    st.(storage := st.storage[FontSizeKey := text], rootFontSize := text + "%")
  }

  function ResetFontSize(st: WidgetState): (r: WidgetState)
    ensures FontSizeKey !in r.storage && FontSizeReadable(r.storage)
    ensures ReadFontSize(r.storage) == 100
    ensures r.rootFontSize == "100%"
    ensures r.storage - {FontSizeKey} == st.storage - {FontSizeKey}
    ensures r.(storage := st.storage, rootFontSize := st.rootFontSize) == st
  {
    st.(storage := st.storage - {FontSizeKey}, rootFontSize := "100%")
  }

  // ---------------------------------------------------------------------
  // Reading-guide overlay

  function CreateReadingGuide(st: WidgetState): (r: WidgetState)
    ensures r.guideCount == st.guideCount + 1
    ensures r.(guideCount := st.guideCount) == st
  {
    st.(guideCount := st.guideCount + 1)
  }

  /** Removes the first overlay, if there is one; the button is left alone. */
  function RemoveOverlay(st: WidgetState): (r: WidgetState)
    ensures st.guideCount == 0 ==> r.guideCount == 0
    ensures st.guideCount > 0 ==> r.guideCount + 1 == st.guideCount
    ensures r.(guideCount := st.guideCount) == st
  {
    if st.guideCount > 0 then st.(guideCount := st.guideCount - 1) else st
  }

  /**
    Removes the first node carrying the reading guide's id: the panel's
    button while it is in the page, otherwise the first overlay.
   */
  function RemoveFirstById(st: WidgetState): (r: WidgetState)
    ensures st.guideButton ==> !r.guideButton && r.guideCount == st.guideCount
    ensures !st.guideButton ==> r == RemoveOverlay(st)
    ensures r.(guideCount := st.guideCount, guideButton := st.guideButton) == st
  {
    if st.guideButton then st.(guideButton := false) else RemoveOverlay(st)
  }

  /** The removal cannot reach the button: the intended lookup, or the button is already gone. */
  predicate RemovesOverlay(st: WidgetState, lookup: GuideLookup) {
    lookup == OverlayOnly || !st.guideButton
  }

  /** The reading-guide removal under the given lookup. */
  function RemoveReadingGuide(st: WidgetState, lookup: GuideLookup): (r: WidgetState)
    ensures RemovesOverlay(st, lookup) ==> r == RemoveOverlay(st)
    ensures !RemovesOverlay(st, lookup) ==> !r.guideButton && r.guideCount == st.guideCount
    ensures r.(guideCount := st.guideCount, guideButton := st.guideButton) == st
  {
    match lookup
    case FirstWithId => RemoveFirstById(st)
    case OverlayOnly => RemoveOverlay(st)
  }

  // ---------------------------------------------------------------------
  // The seven feature toggles

  /**
    Flips the feature's class, stores whether it is now on as "true" or
    "false", and for the reading guide adds or removes the overlay.
   */
  function ToggleFeature(st: WidgetState, f: Feature, lookup: GuideLookup): (r: WidgetState)
    ensures f.Name() in r.bodyClasses <==> f.Name() !in st.bodyClasses
    ensures r.bodyClasses - {f.Name()} == st.bodyClasses - {f.Name()}
    ensures f.Name() in r.storage && r.storage[f.Name()] in {"true", "false"}
    ensures StoredTrue(r.storage, f.Name()) <==> f.Name() in r.bodyClasses
    ensures r.storage == st.storage[f.Name() := if f.Name() in r.bodyClasses then "true" else "false"]
    ensures f != ReadingGuide ==> r.guideCount == st.guideCount && r.guideButton == st.guideButton
    ensures f == ReadingGuide && f.Name() in r.bodyClasses ==>
              r.guideCount == st.guideCount + 1 && r.guideButton == st.guideButton
    ensures f == ReadingGuide && f.Name() !in r.bodyClasses ==>
              r.guideCount == RemoveReadingGuide(st, lookup).guideCount
              && r.guideButton == RemoveReadingGuide(st, lookup).guideButton
    ensures lookup == OverlayOnly ==> r.guideButton == st.guideButton
    ensures GuideConsistent(st) && RemovesOverlay(st, lookup) ==> GuideConsistent(r)
    ensures r.rootFontSize == st.rootFontSize && r.bodyFontFamily == st.bodyFontFamily
    ensures r.panelActive == st.panelActive
  {
    var isActive := f.Name() !in st.bodyClasses;
    var flipped := st.(
      bodyClasses := if isActive then st.bodyClasses + {f.Name()} else st.bodyClasses - {f.Name()},
      storage := st.storage[f.Name() := if isActive then "true" else "false"]);
    FeatureNames(f, ReadingGuide);
    if f != ReadingGuide then flipped
    else if isActive then CreateReadingGuide(flipped)
    else RemoveReadingGuide(flipped, lookup)
  }

  /**
    Toggling twice restores class membership. For every feature but the
    reading guide, and for the reading guide when the removal takes the
    overlay and the overlay was consistent, the whole state is restored
    except the stored entry, which ends as the explicit value matching the
    class rather than what it was.
   */
  lemma ToggleTwice(st: WidgetState, f: Feature, lookup: GuideLookup)
    ensures ToggleFeature(ToggleFeature(st, f, lookup), f, lookup).bodyClasses == st.bodyClasses
    ensures ToggleFeature(ToggleFeature(st, f, lookup), f, lookup).storage
         == st.storage[f.Name() := if f.Name() in st.bodyClasses then "true" else "false"]
    ensures f != ReadingGuide || (GuideConsistent(st) && RemovesOverlay(st, lookup)) ==>
              ToggleFeature(ToggleFeature(st, f, lookup), f, lookup) == st.(
                storage := st.storage[f.Name() := if f.Name() in st.bodyClasses then "true" else "false"])
  {
    var once := ToggleFeature(st, f, lookup);
    var twice := ToggleFeature(once, f, lookup);
    assert twice.bodyClasses == st.bodyClasses by {
      assert twice.bodyClasses - {f.Name()} == st.bodyClasses - {f.Name()};
    }
  }

  /** When the entry already matches the class, toggling twice changes nothing at all. */
  lemma ToggleTwiceIdentity(st: WidgetState, f: Feature, lookup: GuideLookup)
    requires f != ReadingGuide || (GuideConsistent(st) && RemovesOverlay(st, lookup))
    requires f.Name() in st.storage && st.storage[f.Name()] in {"true", "false"}
    requires StoredTrue(st.storage, f.Name()) <==> f.Name() in st.bodyClasses
    ensures ToggleFeature(ToggleFeature(st, f, lookup), f, lookup) == st
  {
    ToggleTwice(st, f, lookup);
    assert st.storage[f.Name() := st.storage[f.Name()]] == st.storage;
  }

  /**
    The lookup as written: switching the reading guide on and off again
    while its button is in the page removes the button, not the overlay.
    The class is off and stored as "false", yet an overlay remains.
   */
  lemma GuideOffRemovesButton(st: WidgetState)
    requires GuideConsistent(st) && st.guideButton
    requires ReadingGuide.Name() !in st.bodyClasses
    ensures var r := ToggleFeature(ToggleFeature(st, ReadingGuide, FirstWithId), ReadingGuide, FirstWithId);
      && ReadingGuide.Name() !in r.bodyClasses
      && r.storage[ReadingGuide.Name()] == "false"
      && r.guideCount == 1
      && !r.guideButton
      && !GuideConsistent(r)
  {
    ToggleTwice(st, ReadingGuide, FirstWithId);
  }

  // ---------------------------------------------------------------------
  // Font family

  /** The lookup `fonts[key]` of the font-family operation. */
  function FontStyleFor(key: string): (s: FontStyle)
    ensures forall c: FontChoice :: c.Key() == key ==> s == Stack(c.Stack())
    ensures s.Stack? <==> key in {"dyslexic", "sans", "serif"}
  {
    if key == "dyslexic" then Stack(Dyslexic.Stack())
    else if key == "sans" then Stack(Sans.Stack())
    else if key == "serif" then Stack(Serif.Stack())
    else UndefinedLookup
  }

  /** Applies the stack the key names and stores the key itself, not the stack. */
  function ChangeFontFamily(st: WidgetState, key: string): (r: WidgetState)
    ensures FontFamilyKey in r.storage && r.storage[FontFamilyKey] == key
    ensures r.storage - {FontFamilyKey} == st.storage - {FontFamilyKey}
    ensures forall c: FontChoice :: c.Key() == key ==> r.bodyFontFamily == Stack(c.Stack())
    ensures r.(storage := st.storage, bodyFontFamily := st.bodyFontFamily) == st
  {
    st.(bodyFontFamily := FontStyleFor(key), storage := st.storage[FontFamilyKey := key])
  }

  /** Choosing a family replaces whatever family was chosen before. */
  lemma ChangeFontFamilyReplaces(st: WidgetState, a: string, b: string)
    ensures ChangeFontFamily(ChangeFontFamily(st, a), b) == ChangeFontFamily(st, b)
  {
    assert st.storage[FontFamilyKey := a][FontFamilyKey := b] == st.storage[FontFamilyKey := b];
  }

  // ---------------------------------------------------------------------
  // Reset all

  function ResetAll(st: WidgetState, lookup: GuideLookup): (r: WidgetState)
    ensures r.bodyClasses !! ClassNames
    ensures r.bodyClasses == st.bodyClasses - ClassNames
    ensures r.rootFontSize == "100%" && r.bodyFontFamily == Unset
    ensures r.storage.Keys !! WidgetKeys
    ensures r.storage == st.storage - WidgetKeys
    ensures r.guideCount == RemoveReadingGuide(st, lookup).guideCount
    ensures r.guideButton == RemoveReadingGuide(st, lookup).guideButton
    ensures RemovesOverlay(st, lookup) && st.guideCount <= 1 ==> r.guideCount == 0
    ensures GuideConsistent(st) && (RemovesOverlay(st, lookup) || st.guideCount == 0) ==> GuideConsistent(r)
    ensures r.panelActive == st.panelActive
  {
    var cleared := st.(
      bodyClasses := st.bodyClasses - ClassNames,
      rootFontSize := "100%",
      bodyFontFamily := Unset,
      storage := st.storage - WidgetKeys);
    RemoveReadingGuide(cleared, lookup)
  }

  /**
    Resetting a second time changes nothing, provided at most one overlay
    existed and the first reset did not spend its removal on the button
    while an overlay was on the page.
   */
  lemma ResetAllIdempotent(st: WidgetState, lookup: GuideLookup)
    requires st.guideCount <= 1
    requires RemovesOverlay(st, lookup) || st.guideCount == 0
    ensures ResetAll(ResetAll(st, lookup), lookup) == ResetAll(st, lookup)
  {
  }

  /**
    The lookup as written: any reset while the Reading Guide button is in
    the page removes that button, whether or not the guide was ever on, so
    the guide cannot be switched on again until the page is reloaded.
    Under the intended lookup the button stays.
   */
  lemma ResetRemovesButton(st: WidgetState)
    requires st.guideButton
    ensures !ResetAll(st, FirstWithId).guideButton
    ensures ResetAll(st, OverlayOnly).guideButton
  {
  }

  /**
    The lookup as written: resetting while the reading guide is on and its
    button is in the page removes the button; the overlay stays although
    its class is gone, and a second reset is needed to remove it.
   */
  lemma ResetWithGuideLeavesOverlay(st: WidgetState)
    requires GuideConsistent(st) && st.guideButton
    requires ReadingGuide.Name() in st.bodyClasses
    ensures var r := ResetAll(st, FirstWithId);
      && ReadingGuide.Name() !in r.bodyClasses
      && r.guideCount == 1
      && !r.guideButton
      && !GuideConsistent(r)
      && ResetAll(r, FirstWithId) != r
  {
  }

  // ---------------------------------------------------------------------
  // Settings loader

  /** Adds every listed class whose stored entry is exactly "true". */
  function AddStoredClasses(classes: set<string>, storage: map<string, string>, names: seq<string>)
    : (r: set<string>)
    ensures forall c :: c in r <==> c in classes || (c in names && StoredTrue(storage, c))
    decreases |names|
  {
    if |names| == 0 then classes
    else
      var added := if StoredTrue(storage, names[0]) then classes + {names[0]} else classes;
      AddStoredClasses(added, storage, names[1..])
  }

  /** First step of loading: a non-empty stored size is applied verbatim, without clamping. */
  function LoadFontSize(st: WidgetState): (r: WidgetState)
    ensures r.rootFontSize == if FontSizeKey in st.storage && st.storage[FontSizeKey] != ""
                              then st.storage[FontSizeKey] + "%" else st.rootFontSize
    ensures r.(rootFontSize := st.rootFontSize) == st
  {
    if FontSizeKey in st.storage && st.storage[FontSizeKey] != ""
    then st.(rootFontSize := st.storage[FontSizeKey] + "%") else st
  }

  /** Second step: a non-empty stored family key goes through the font-family operation again. */
  function LoadFontFamily(st: WidgetState): (r: WidgetState)
    ensures r.bodyFontFamily == if FontFamilyKey in st.storage && st.storage[FontFamilyKey] != ""
                                then FontStyleFor(st.storage[FontFamilyKey]) else st.bodyFontFamily
    ensures r.(bodyFontFamily := st.bodyFontFamily) == st
  {
    if FontFamilyKey in st.storage && st.storage[FontFamilyKey] != "" then
      var key := st.storage[FontFamilyKey];
      assert st.storage[FontFamilyKey := key] == st.storage;
      ChangeFontFamily(st, key)
    else st
  }

  /** Third step: the six features other than the reading guide get their class back. */
  function LoadPlainFeatures(st: WidgetState): (r: WidgetState)
    ensures forall f: Feature :: f != ReadingGuide ==>
              (f.Name() in r.bodyClasses <==> f.Name() in st.bodyClasses || StoredTrue(st.storage, f.Name()))
    ensures r.bodyClasses - st.bodyClasses <= ClassNames - {ReadingGuide.Name()}
    ensures st.bodyClasses <= r.bodyClasses
    ensures r.(bodyClasses := st.bodyClasses) == st
  {
    st.(bodyClasses := AddStoredClasses(st.bodyClasses, st.storage, PlainNames))
  }

  /** Last step: a stored reading guide gets its class and a new overlay. */
  function LoadReadingGuide(st: WidgetState): (r: WidgetState)
    ensures r.bodyClasses == if StoredTrue(st.storage, ReadingGuide.Name())
                             then st.bodyClasses + {ReadingGuide.Name()} else st.bodyClasses
    ensures r.guideCount == st.guideCount + if StoredTrue(st.storage, ReadingGuide.Name()) then 1 else 0
    ensures r.(bodyClasses := st.bodyClasses, guideCount := st.guideCount) == st
  {
    if StoredTrue(st.storage, ReadingGuide.Name())
    then CreateReadingGuide(st.(bodyClasses := st.bodyClasses + {ReadingGuide.Name()}))
    else st
  }

  /** The class part of loading: a feature's class is on afterwards iff it was on or stored as "true". */
  lemma LoadedClasses(st: WidgetState)
    ensures var r := LoadReadingGuide(LoadPlainFeatures(st));
      && (forall f: Feature :: f.Name() in r.bodyClasses
            <==> f.Name() in st.bodyClasses || StoredTrue(st.storage, f.Name()))
      && r.bodyClasses - ClassNames == st.bodyClasses - ClassNames
  {
    var plain := LoadPlainFeatures(st);
    var r := LoadReadingGuide(plain);
    forall f: Feature
      ensures f.Name() in r.bodyClasses <==> f.Name() in st.bodyClasses || StoredTrue(st.storage, f.Name())
    {
      FeatureNames(f, ReadingGuide);
    }
    FeatureNames(ReadingGuide, ReadingGuide);
  }

  /**
    Rebuilds the look from the store: size, then family, then the plain
    features, then the reading guide. The store itself is left as it was.
   */
  function LoadSettings(st: WidgetState): (r: WidgetState)
    ensures r.storage == st.storage
    ensures forall f: Feature :: f.Name() in r.bodyClasses
              <==> f.Name() in st.bodyClasses || StoredTrue(st.storage, f.Name())
    ensures r.bodyClasses - ClassNames == st.bodyClasses - ClassNames
    ensures r.rootFontSize == if FontSizeKey in st.storage && st.storage[FontSizeKey] != ""
                              then st.storage[FontSizeKey] + "%" else st.rootFontSize
    ensures r.bodyFontFamily == if FontFamilyKey in st.storage && st.storage[FontFamilyKey] != ""
                                then FontStyleFor(st.storage[FontFamilyKey]) else st.bodyFontFamily
    ensures r.guideCount == st.guideCount + if StoredTrue(st.storage, ReadingGuide.Name()) then 1 else 0
    ensures r.guideButton == st.guideButton && r.panelActive == st.panelActive
    ensures st.guideCount == 0 && ReadingGuide.Name() !in st.bodyClasses ==> GuideConsistent(r)
  {
    var styled := LoadFontFamily(LoadFontSize(st));
    assert styled.storage == st.storage && styled.bodyClasses == st.bodyClasses;
    LoadedClasses(styled);
    LoadReadingGuide(LoadPlainFeatures(styled))
  }

  /** Loading twice is not harmless: a stored reading guide gets a second overlay. */
  lemma LoadSettingsTwiceDuplicatesGuide(st: WidgetState)
    requires StoredTrue(st.storage, ReadingGuide.Name())
    ensures LoadSettings(LoadSettings(st)).guideCount == st.guideCount + 2
  {
  }
}
